=== FILE: README.md ===
# paradox reconcilers, modelled in Dafny

A model of the decision logic in the `paradox` Kubernetes operator. The operator
mirrors Organization, Bucket and Authorization resources onto InfluxDB instances.
Every reconcile works the same way:

- It walks the Organization's `instance_refs` (namespace → name → authorization)
  to get an Influx client for one instance.
- It runs a per-kind create-or-update step against that instance.
- It builds the resource's status from empty, as a namespace → name → `{id?}` map,
  through `Instances.AddInstance`.
- It writes that status only if the step succeeded.

The Influx instances are an abstract `Influx.Server` value: organizations and
buckets by name, the authorizations created so far, an id counter, and the set of
operations that currently fail. Each step is a pure function from the spec, the
statuses it reads, and the world to an error-or-none, the new status, the new
world, and the list of effects issued (`Controllers.Effect`: the Influx client
calls and the token Secret write). That makes idempotence,
"no call issued", all-or-nothing and "nothing else changes" statable.

Modules:

- `Wrappers`: Option and Result.
- `Api`: the v1alpha1 types, the status map and `AddInstance`.
- `Influx`: the abstract remote and its client calls.
- `Controllers`: pointer helpers, errors, the cluster store, the effect log,
  `forEachInstanceClient` and the status write.
- `OrganizationController`, `BucketController`, `AuthorizationController`: one
  module per reconciler.
- `Properties`: lemmas that relate two reconciles.
- `Scenarios`: concrete worked reconciles.

Behaviour modelled as the code has it, where a reader might expect otherwise:

- `forEachInstanceClient` returns from inside its inner loop. It therefore
  handles only the first reference in Go's (unspecified) map order. The model
  takes that order as a parameter `order` that must list every reference exactly
  once (`IsVisitOrder`), and uses only `order[0]`. `Scenarios.OnlyFirstReferenceReconciled`
  shows a successful reconcile of two references that records only one.
- Go draws a new map order for every `range`, so successive reconciles can visit
  different references first. Each visit then replaces the status with an entry
  for the other reference. An Authorization finds no id for the reference it now
  visits and creates a new authorization on every such reconcile
  (`Scenarios.AlternatingOrderRecreatesAuthorization`). Idempotence therefore
  holds only when the same reference is visited first again.
- An Organization found with a nil id succeeds without adding a status entry.
- The Bucket step does not check that the Organization has an id for the
  instance. It creates the bucket with a nil org id.
- The Authorization step does not check that a referenced Bucket has an id. It
  sends the permission with a nil resource id.
- The Authorization step records the new id before the token Secret is written.
  A Secret failure then fails the whole reconcile, so the id is never persisted
  and the retry creates a second authorization
  (`Properties.SecretFailureDuplicatesAuthorization`).
- `domainBucket` never sends the spec's `SchemaType`, not even on create, and
  the model's create request has no schema field.
- The Bucket step treats any lookup error whose text contains "not found" as
  absence. The Organization step returns every lookup error.

## Model

| member | source | states |
|---|---|---|
| Api.AddInstance | api/v1alpha1/organization_types.go:65-77 | A nil id leaves the map unchanged. Otherwise the entry for (ns, name) becomes `{ID: id}`. Every other (namespace, name) entry, siblings included, reads the same as before. The namespace's inner map is created only when absent and otherwise keeps its names plus the new one. |
| Api.AddInstanceKeys | api/v1alpha1/organization_types.go:70-76 | With a non-nil id, the set of (namespace, name) keys afterwards is the old set plus (ns, name). |
| Api.AddInstanceIdempotent | api/v1alpha1/organization_types.go:65-77 | Adding the same id twice for the same instance equals adding it once. |
| Api.IdOf | controllers/authorization_controller.go:85-86 | The `m[ns][name]` read with Go's zero value yields an id exactly when an entry exists and its id is non-nil. When an entry exists, the result is that entry's id. |
| Controllers.ToStringPtr | controllers/organization_controller.go:39-46 | nil maps to nil. A non-nil id maps to a string with the same characters. |
| Controllers.FromStringPtr | controllers/organization_controller.go:48-55 | nil maps to nil. A non-nil string maps to an id with the same characters. |
| Controllers.FromToStringPtr | controllers/organization_controller.go:39-55 | Converting an id to a string pointer and back gives the same id, nil included. |
| Controllers.ToFromStringPtr | controllers/organization_controller.go:39-55 | Converting a string pointer to an id and back gives the same string, nil included. |
| Controllers.ForEachInstanceClient | controllers/organization_controller.go:140-168 | With no references: success, and the callback state is untouched. A failed Instance fetch for the first visited reference returns `InstanceNotFound` without calling the callback. A non-token or token-less authorization returns `ErrOrgHasNoAuthorization` without calling it. Otherwise the result is exactly the callback's result for the first visited reference, with that Instance's address and token. |
| Controllers.ForEachInstanceClientFirstOnly | controllers/organization_controller.go:146-165 | For any references and any visit order, the walk gives the same result as a walk over only the first visited reference. No other reference is fetched, checked or handed to the callback. |
| OrganizationController.SyncOrganization | controllers/organization_controller.go:88-116 | A failed lookup returns its error after only the lookup call, with no status entry. A found organization whose description is nil or equal gets no mutating call, and its id is recorded. A non-nil, differing description gets exactly one update that carries the spec description. The step fails exactly when that update fails, with the update's error. On success the id is recorded. The world afterwards is the old one with only that organization's description replaced on the target server. No step changes any other server. |
| OrganizationController.ReconcileOrganization | controllers/organization_controller.go:72-131 | A failed reconcile leaves the status as it was. A successful one writes a status whose only possible entry is the first visited reference, which is one of `instance_refs`. On success the written status is exactly `{first visited reference: the remote organization's id}`, or empty when the id is nil or there are no references. It never merges with or keeps anything from the old status. No call other than an organization lookup or update is ever issued. Every server except the visited Instance's is left as it was. The error is none with no references, `InstanceNotFound` for a first reference without an Instance, `ErrOrgHasNoAuthorization` for one without a usable token, and otherwise exactly the step's error on that reference. |
| BucketController.WholeSeconds | controllers/bucket_controller.go:158 | The duration in whole seconds, truncated toward zero, for positive and negative durations alike. |
| BucketController.DomainBucket | controllers/bucket_controller.go:151-170 | Name and description come from the spec. The org id is the string form of the given id, nil for nil. An empty retention policy gives no rule. There is exactly one rule if and only if the policy is non-empty and parses, and its `EverySeconds` is the parsed duration in whole seconds. An unparsable policy gives no rule and no error. |
| BucketController.SyncBucket | controllers/bucket_controller.go:88-134 | A lookup error without "not found" is returned wrapped with the instance, and no create is made. "not found" leads to exactly one create. Its request carries the Organization status id for the same instance, or nil. The step fails exactly when that create fails, with the create's error wrapped with the instance. On success the new id is recorded, and the world afterwards is the old one plus that bucket and an advanced id counter on the target server. A create error is wrapped and records nothing. An existing bucket with a nil or differing description gets one update. The step fails exactly when that update fails, with its error wrapped. On success that update changes only the description of that bucket on the target server. A matching bucket gets no mutating call and its id is recorded. No step changes any other server. |
| BucketController.ReconcileBucket | controllers/bucket_controller.go:62-149 | A missing Organization ends the reconcile with no error, no call and the status unchanged. A failed reconcile keeps the old status. A successful one writes exactly `{first visited reference: the bucket's id}`. That id is the existing remote bucket's id (nothing if nil), or the id the create handed out. Nothing of the old status is kept. No organization call is issued. Every server except the visited Instance's is left as it was. With the Organization present, the error is none with no references, `InstanceNotFound` for a first reference without an Instance, `ErrOrgHasNoAuthorization` for one without a usable token, and otherwise exactly the step's error on that reference. |
| AuthorizationController.BuildPermissions | controllers/authorization_controller.go:106-133 | The list is built if and only if every permission has type `buckets` and names an existing Bucket. It then has one entry per permission, in declaration order. Each entry carries the action, the type, the org id, and the bucket's id for the same instance (nil when there is none). Otherwise the error is the one of the first permission that fails, and no list is returned. |
| AuthorizationController.SyncAuthorization | controllers/authorization_controller.go:83-190 | With no Organization id for the instance the step fails with "organization does not have an ID" before any call. An id already in the Authorization's own status is carried over, with no call. A permission that cannot be built returns its error with no call at all. Otherwise exactly one create is issued with the whole permission list. A create error is returned with no status entry. On a successful create, the new id is recorded. The target server gains that authorization and advances its id counter, and nothing else in the world changes. The step then ends exactly as the token-storing step does from there, with the created token. |
| AuthorizationController.CreatedTokenStored | controllers/authorization_controller.go:135-182 | After a successful create: with no Secret declared the step succeeds. A name that does not render gives `attempting secret creation`. A rendered name gives exactly one Secret write, in the declared namespace and key, carrying the created token. The step fails with the store's error exactly when that write fails. |
| AuthorizationController.ReconcileAuthorization | controllers/authorization_controller.go:57-210 | A missing Organization ends the reconcile with no error, no call and the status unchanged. A failed reconcile keeps the old status, even after a create or a Secret failure. A successful one writes exactly `{first visited reference: id}`. The id is the one the old status already recorded for that instance, or else the one the create handed out. No other old entry is kept. Every server except the visited Instance's is left as it was. With the Organization present, the error is none with no references, `InstanceNotFound` for a first reference without an Instance, `ErrOrgHasNoAuthorization` for one without a usable token, and otherwise exactly the step's error on that reference. |
| Properties.OrganizationReplaces | controllers/organization_controller.go:84-122 | A successful reconcile is the same, status written included, whatever status the Organization had before. The status is replaced, never merged. |
| Properties.SyncOrganizationTwice | controllers/organization_controller.go:88-116 | After a successful step, a second step on the resulting world succeeds, records the same status, leaves the world unchanged and issues no mutating call. |
| Properties.OrganizationIdempotent | controllers/organization_controller.go:72-131 | Reconciling again with the written status and the resulting world, when the second walk visits the same reference first, writes the same status, leaves the world unchanged and issues no mutating call. |
| Properties.SyncBucketTwice | controllers/bucket_controller.go:88-134 | On healthy servers, after a successful step (create, update or none), a second step finds the bucket. It records the same status, leaves the world unchanged and issues no mutating call. |
| Properties.BucketIdempotent | controllers/bucket_controller.go:62-149 | On healthy servers, reconciling again when the second walk visits the same reference first writes the same status, leaves the world unchanged and issues no mutating call: the bucket is not created twice. |
| Properties.BucketReplaces | controllers/bucket_controller.go:84-140 | When the Organization exists, a successful reconcile is the same, status written included, whatever status the Bucket had before. |
| Properties.AuthorizationReplaces | controllers/authorization_controller.go:79-198 | A successful reconcile depends on the old status only through its id for the visited instance. Any old status that agrees there gives the same result, so every other old entry is dropped. |
| Properties.AuthorizationIdempotent | controllers/authorization_controller.go:95-190 | Reconciling again with the written status, when the second walk visits the same reference first, issues no call at all, and writes the same status into the same world. |
| Properties.SyncSecretFailureRepeats | controllers/authorization_controller.go:95-182 | On one instance, a step that failed at the token Secret has sent a create. Run again on the world it left, with the same empty own status, it sends the same create and fails with the same error. |
| Properties.SecretFailureDuplicatesAuthorization | controllers/authorization_controller.go:135-195 | When the Secret name fails to render, or the Secret cannot be written, the reconcile fails after a create and keeps the old status. The retry sends the same create request again and fails with the same error. |
| Scenarios.OrganizationDescriptionDrift | controllers/organization_controller.go:88-116 | Remote `acme` has id `0x1` and description "x", and the spec says "y". The reconcile issues one lookup and one update and writes `{ns: {inst1: {id: "0x1"}}}`. |
| Scenarios.BucketCreatedWithRetention | controllers/bucket_controller.go:94-116 | Bucket `metrics` with policy "720h" is absent remotely. The reconcile issues one create with a 2592000-second rule and the Organization's id, and records the new id. |
| Scenarios.OnlyFirstReferenceReconciled | controllers/organization_controller.go:146-165 | With two usable references the reconcile succeeds but records only the first visited one. |
| Scenarios.AlternatingOrderRecreatesAuthorization | controllers/authorization_controller.go:95-96 | Two usable references on one server, an Authorization without a Secret, three reconciles whose visit orders alternate. Each finds no id for its first reference, succeeds, and sends one create. The status changes between runs, and the server ends with three authorizations. |
| Scenarios.PermissionOnBucketWithoutId | controllers/authorization_controller.go:115-133 | A permission on a Bucket with no id for the instance is sent with a nil resource id, and there is no error. |

## Left out

- Fetching the reconciled object itself (`r.Get` with `IgnoreNotFound`), and a failing status write (`r.Status().Update`). The model starts from the fetched object. Its status result is what would be written.
- Object-store errors other than "not found" when fetching the Organization, an Instance or a Bucket. Those fetches are modelled as map lookups, so absence is the only failure.
- `SetupWithManager`, the field indexer and `findObjectsForOrganization`. These are watch and enqueue wiring.
- Logging and `ctrl.Result`.
- `time.ParseDuration`: modelled as the parameter `parseDuration` (text to nanoseconds, or none).
- BucketController.WholeSeconds: computes exact truncation of nanoseconds to seconds. `int64(dur.Seconds())` goes through a float64, `float64(sec) + float64(nsec)/1e9`. From about 2^24 seconds (about 194 days) upward, a fractional part within a few nanoseconds of a whole second rounds up to the next second, so Go gives one second more than the model. An example is "4661h59m59.999999999s". That rounding is not modelled.
- The `html/template` parse and execute of the Secret name: modelled as the parameter `render`, which either gives a name or fails.
- The Secret object itself: its write is a `SecretCreate` call that fails when `Cluster.secretCreateError` is set.
- Go map iteration order: modelled as the `order` parameter, an arbitrary enumeration of the references. Each reconcile takes its own `order`, and nothing ties one reconcile's order to the next.
- Context cancellation, and concurrency between reconciles.
- Authentication against Influx: the client carries the token, but the abstract server does not check it.
- Error message formatting (`%w`, `%q`): errors are structured values (`Controllers.Error`). The wrapping is visible as `AtInstance(key, cause)`.
- Influx's own behaviour: ids are `Hex(counter)`, updates are keyed by name, a bucket create with a taken name fails, and an address with no server fails every call. The not-found texts ("bucket 'x' not found") follow the client library's wording.
- Nil-pointer panics on `*auth.Id` and `*auth.Token`: the abstract server always returns both.
- `SchemaType`: never sent to Influx (see above). Retention drift after creation is not reconciled by the code, and not by the model either.

=== FILE: api.dfy ===
/** The resource types of the `paradox.macro.re/v1alpha1` API group: the
    Organization, Bucket and Authorization specs, and the per-instance status
    map every reconciler writes through `AddInstance`. */
module Api {
  import opened Wrappers

  // ---------------------------------------------------------------------------
  // Status map
  // ---------------------------------------------------------------------------

  /** An identifier assigned by an Influx instance (a hex-encoded int64). It is a
      distinct string type in the source, hence a one-field datatype here. */
  datatype InfluxID = InfluxID(hex: string)

  /** The unit stored in every status map; a nil id means "not provisioned". */
  datatype ResourceInstance = ResourceInstance(id: Option<InfluxID>)

  /** The (namespace, name) of an Instance object, the key of every status entry. */
  datatype InstanceKey = InstanceKey(namespace: string, name: string)

  /** namespace -> name -> resource instance. */
  type Instances = map<string, map<string, ResourceInstance>>

  /** The two-level lookup with the `, ok` form: `None` when either level is absent. */
  function Find(m: Instances, k: InstanceKey): Option<ResourceInstance>
  {
    if k.namespace in m && k.name in m[k.namespace] then Some(m[k.namespace][k.name]) else None
  }

  /** The two-level lookup with Go's zero-value semantics: a missing entry reads as
      `ResourceInstance{ID: nil}`, so its id is `None`. */
  function IdOf(m: Instances, k: InstanceKey): (id: Option<InfluxID>)
    ensures id.Some? <==> Find(m, k).Some? && Find(m, k).value.id.Some?
    ensures Find(m, k).Some? ==> id == Find(m, k).value.id
  {
    match Find(m, k)
    case Some(inst) => inst.id
    case None => None
  }

  /** Every (namespace, name) pair that has an entry. */
  ghost function Keys(m: Instances): set<InstanceKey>
  {
    set ns, n | ns in m && n in m[ns] :: InstanceKey(ns, n)
  }

  /** `Instances.AddInstance`: record `id` for instance `k`. A nil id is a no-op;
      otherwise the namespace's inner map is created only when absent and the
      entry for `k` is (over)written, every other entry untouched. */
  function AddInstance(m: Instances, k: InstanceKey, id: Option<InfluxID>): (r: Instances)
    ensures id.None? ==> r == m
    ensures id.Some? ==> Find(r, k) == Some(ResourceInstance(id))
    ensures forall k' :: k' != k ==> Find(r, k') == Find(m, k')
    ensures id.Some? && k.namespace !in m ==> r[k.namespace].Keys == {k.name}
    ensures id.Some? && k.namespace in m ==> r[k.namespace].Keys == m[k.namespace].Keys + {k.name}
    ensures r.Keys == if id.Some? then m.Keys + {k.namespace} else m.Keys
  {
    if id.None? then
      m
    else
      var inner := if k.namespace in m then m[k.namespace] else map[];
      m[k.namespace := inner[k.name := ResourceInstance(id)]]
  }

  /** With a non-nil id the key set grows by exactly `k`. */
  lemma AddInstanceKeys(m: Instances, k: InstanceKey, x: InfluxID)
    ensures Keys(AddInstance(m, k, Some(x))) == Keys(m) + {k}
  {
  }

  /** Recording the same id twice is the same as recording it once. */
  lemma AddInstanceIdempotent(m: Instances, k: InstanceKey, id: Option<InfluxID>)
    ensures AddInstance(AddInstance(m, k, id), k, id) == AddInstance(m, k, id)
  {
    if id.Some? {
      var r := AddInstance(m, k, id);
      var inner := r[k.namespace];
      assert inner[k.name := ResourceInstance(id)] == inner;
      assert r[k.namespace := inner] == r;
    }
  }

  // ---------------------------------------------------------------------------
  // Organization
  // ---------------------------------------------------------------------------

  /** The closed `token | secret` variant of an instance authorization. */
  datatype InstanceAuthorizationType = TokenAuth | SecretAuth

  datatype SecretRef = SecretRef(namespace: string, name: string, key: string)

  /** How an Organization authenticates against one Instance. Only `TokenAuth`
      with a token present is usable by the reconcilers. */
  datatype InstanceAuthorization = InstanceAuthorization(
    authType: InstanceAuthorizationType,
    token: Option<string>,
    secret: Option<SecretRef>)

  /** namespace -> name -> authorization, the `instance_refs` of an Organization. */
  type InstanceRefs = map<string, map<string, InstanceAuthorization>>

  predicate IsRef(refs: InstanceRefs, k: InstanceKey)
  {
    k.namespace in refs && k.name in refs[k.namespace]
  }

  datatype OrganizationSpec = OrganizationSpec(
    name: string,
    description: string,
    instanceRefs: InstanceRefs)

  datatype Organization = Organization(spec: OrganizationSpec, status: Instances)

  // ---------------------------------------------------------------------------
  // Bucket
  // ---------------------------------------------------------------------------

  datatype SchemaType = Implicit | Explicit

  /** `retentionPolicy` is a Go duration string; empty means no retention rule. */
  datatype BucketSpec = BucketSpec(
    name: string,
    organization: string,
    description: string,
    schemaType: SchemaType,
    retentionPolicy: string)

  datatype Bucket = Bucket(spec: BucketSpec, status: Instances)

  // ---------------------------------------------------------------------------
  // Authorization
  // ---------------------------------------------------------------------------

  datatype Action = Read | Write

  /** The resource type is a free string; only "buckets" is acted upon. */
  datatype Resource = Resource(resourceType: string, name: string)

  datatype Permission = Permission(action: Action, resource: Resource)

  /** Where to store the token of a created authorization: a Secret in
      `namespace`, named by rendering `nameTemplate`, under `key`. */
  datatype SecretSpec = SecretSpec(namespace: string, nameTemplate: string, key: string)

  datatype Token = Token(secretSpec: Option<SecretSpec>)

  datatype AuthorizationSpec = AuthorizationSpec(
    organization: string,
    description: string,
    permissions: seq<Permission>,
    token: Token)

  datatype Authorization = Authorization(spec: AuthorizationSpec, status: Instances)
}

=== FILE: authorization_controller.dfy ===
/** `AuthorizationReconciler.Reconcile`: authorizations have no natural key on
    an Influx instance, so the reconciler creates one only when its own status
    records no id for the instance, and then stores the returned token in a
    Secret when the spec asks for one. */
module AuthorizationController {
  import opened Wrappers
  import opened Api
  import Influx
  import opened Controllers

  /** The outcome of rendering a Secret's name template for an instance. */
  datatype Rendering = Rendered(name: string) | RenderFailed(message: string)

  /** `domain.PermissionAction(permission.Action)`. */
  function ToPermissionAction(a: Action): Influx.PermissionAction
  {
    match a
    case Read => Influx.ReadAction
    case Write => Influx.WriteAction
  }

  const BucketsType := "buckets"

  /** A declared permission can be turned into a request permission: it names a
      bucket, and that Bucket object exists. */
  predicate Buildable(p: Permission, buckets: map<string, Bucket>)
  {
    p.resource.resourceType == BucketsType && p.resource.name in buckets
  }

  /** Why a permission cannot be built: an unsupported type, or a missing Bucket. */
  function PermissionError(p: Permission): Error
  {
    if p.resource.resourceType == BucketsType then BucketFetchFailed(p.resource.name)
    else UnsupportedResourceType(p.resource.resourceType)
  }

  /** The request permission for a buildable `p`: its action and type, scoped to
      the organization, and narrowed to the bucket's id on instance `key` (nil
      when the Bucket has none there). */
  function PermissionFor(p: Permission, orgId: Option<InfluxID>, bucket: Bucket, key: InstanceKey)
    : Influx.Permission
  {
    Influx.Permission(ToPermissionAction(p.action), p.resource.resourceType,
                      ToStringPtr(orgId), ToStringPtr(IdOf(bucket.status, key)))
  }

  /** The permission loop of the callback: in declaration order, every permission
      becomes a request permission, and the first one that cannot ends the loop
      with its error and no list at all. */
  function BuildPermissions(
    perms: seq<Permission>, orgId: Option<InfluxID>, buckets: map<string, Bucket>, key: InstanceKey)
    : (r: Result<seq<Influx.Permission>, Error>)
    ensures r.Success? <==> forall i :: 0 <= i < |perms| ==> Buildable(perms[i], buckets)
    ensures r.Success? ==> |r.value| == |perms|
    ensures r.Success? ==> forall i :: 0 <= i < |perms| ==>
      r.value[i] == PermissionFor(perms[i], orgId, buckets[perms[i].resource.name], key)
    ensures r.Failure? ==>
      exists i :: (0 <= i < |perms| && !Buildable(perms[i], buckets)
                   && (forall j :: 0 <= j < i ==> Buildable(perms[j], buckets))
                   && r.error == PermissionError(perms[i]))
    decreases |perms|
  {
    if |perms| == 0 then
      Success([])
    else
      var p := perms[0];
      if !Buildable(p, buckets) then
        Failure(PermissionError(p))
      else
        var first := PermissionFor(p, orgId, buckets[p.resource.name], key);
        match BuildPermissions(perms[1..], orgId, buckets, key)
        case Failure(err) => Failure(err)
        case Success(rest) => Success([first] + rest)
  }

  /** The create request: the spec's description, the organization's id, and the
      built permissions. */
  function AuthorizationRequestFor(spec: AuthorizationSpec, orgId: InfluxID, perms: seq<Influx.Permission>)
    : (req: Influx.AuthorizationRequest)
    ensures req.description == Some(spec.description)
    ensures req.orgId == Some(orgId.hex) && req.permissions == perms
  {
    Influx.AuthorizationRequest(Some(spec.description), ToStringPtr(Some(orgId)), perms)
  }

  /** After the create: store the token when a Secret is declared. The new id is
      already in `e.status`; an error here still discards it, because the
      reconcile writes no status on error. */
  function StoreToken(
    spec: AuthorizationSpec, cluster: Cluster, render: (string, InstanceKey) -> Rendering,
    key: InstanceKey, token: string, e: Env): (r: (Option<Error>, Env))
    ensures r.1.status == e.status && r.1.world == e.world
    ensures spec.token.secretSpec.None? ==> r == (None, e)
    ensures spec.token.secretSpec.Some? ==>
      var secret := spec.token.secretSpec.value;
      match render(secret.nameTemplate, key)
      case RenderFailed(m) => r == (Some(SecretCreation(m)), e)
      case Rendered(n) =>
        && r.1.calls == e.calls + [SecretCreate(secret.namespace, n, secret.key, token)]
        && r.0 == (match cluster.secretCreateError
                   case None => None
                   case Some(m) => Some(SecretStoreError(m)))
  {
    match spec.token.secretSpec
    case None => (None, e)
    case Some(secret) =>
      match render(secret.nameTemplate, key)
      case RenderFailed(m) => (Some(SecretCreation(m)), e)
      case Rendered(n) =>
        var e' := e.(calls := e.calls + [SecretCreate(secret.namespace, n, secret.key, token)]);
        match cluster.secretCreateError
        case None => (None, e')
        case Some(m) => (Some(SecretStoreError(m)), e')
  }

  /** The callback `Reconcile` hands to `forEachInstanceClient`. `orgStatus` is the
      status of the authorization's Organization and `own` the authorization's
      status as fetched; `render` stands for the name-template rendering. */
  function SyncAuthorization(
    spec: AuthorizationSpec, orgStatus: Instances, own: Instances, cluster: Cluster,
    render: (string, InstanceKey) -> Rendering, t: Target, e: Env): (r: (Option<Error>, Env))
    // no organization id for the instance: fail before any call
    ensures IdOf(orgStatus, t.instance.key).None? ==> r == (Some(OrgHasNoId), e)
    // an id already recorded: carry it over, no call at all
    ensures IdOf(orgStatus, t.instance.key).Some? && IdOf(own, t.instance.key).Some? ==>
      r == (None, e.(status := AddInstance(e.status, t.instance.key, IdOf(own, t.instance.key))))
    // a permission that cannot be built: its error, no call at all
    ensures IdOf(orgStatus, t.instance.key).Some? && IdOf(own, t.instance.key).None? ==>
      var built := BuildPermissions(spec.permissions, IdOf(orgStatus, t.instance.key), cluster.buckets, t.instance.key);
      built.Failure? ==> r == (Some(built.error), e)
    // otherwise exactly one create, with the whole permission list
    ensures IdOf(orgStatus, t.instance.key).Some? && IdOf(own, t.instance.key).None? ==>
      var orgId := IdOf(orgStatus, t.instance.key);
      var built := BuildPermissions(spec.permissions, orgId, cluster.buckets, t.instance.key);
      var server := Influx.ServerAt(e.world, t.client.address);
      built.Success? ==>
        var request := AuthorizationRequestFor(spec, orgId.value, built.value);
        && |r.1.calls| > |e.calls|
        && r.1.calls[..|e.calls| + 1] == e.calls + [AuthorizationCreate(request)]
        && (Influx.CreateAuthOp in server.faults ==>
              r == (Some(InfluxError(server.faults[Influx.CreateAuthOp])),
                    e.(calls := e.calls + [AuthorizationCreate(request)])))
        && (Influx.CreateAuthOp !in server.faults ==>
              var token := Influx.TokenFor(server.nextId);
              var created := Influx.Authorization(Influx.Hex(server.nextId), token, request);
              && t.client.address in e.world
              && r.1.status == AddInstance(e.status, t.instance.key, Some(InfluxID(Influx.Hex(server.nextId))))
              && r.1.world == e.world[t.client.address := server.(
                   authorizations := server.authorizations + [created], nextId := server.nextId + 1)]
              // then the token, with the created one and the state after the create
              && r == StoreToken(spec, cluster, render, t.instance.key, token,
                                 Env(r.1.status, r.1.world, e.calls + [AuthorizationCreate(request)])))
    // nothing but the target server ever changes
    ensures FramedTo(e.world, r.1.world, Some(t.client.address))
  {
    var key := t.instance.key;
    var orgId := IdOf(orgStatus, key);
    if orgId.None? then
      (Some(OrgHasNoId), e)
    else if IdOf(own, key).Some? then
      (None, e.(status := AddInstance(e.status, key, IdOf(own, key))))
    else
      match BuildPermissions(spec.permissions, orgId, cluster.buckets, key)
      case Failure(err) => (Some(err), e)
      case Success(perms) =>
        var server := Influx.ServerAt(e.world, t.client.address);
        var request := AuthorizationRequestFor(spec, orgId.value, perms);
        var calls := e.calls + [AuthorizationCreate(request)];
        match Influx.CreateAuthorization(server, request)
        case Failure(msg) => (Some(InfluxError(msg)), e.(calls := calls))
        case Success((created, server')) =>
          var e' := Env(AddInstance(e.status, key, FromStringPtr(Some(created.id))),
                        e.world[t.client.address := server'], calls);
          StoreToken(spec, cluster, render, key, created.token, e')
  }

  /** After a successful create the token goes where the spec says. With no
      Secret declared the step succeeds. Otherwise a name that does not render
      is the step's error, and a rendered name gives exactly one Secret write
      carrying the created token, whose failure is the step's error. */
  lemma CreatedTokenStored(
    spec: AuthorizationSpec, orgStatus: Instances, own: Instances, cluster: Cluster,
    render: (string, InstanceKey) -> Rendering, t: Target, e: Env)
    requires IdOf(orgStatus, t.instance.key).Some? && IdOf(own, t.instance.key).None?
    requires BuildPermissions(spec.permissions, IdOf(orgStatus, t.instance.key), cluster.buckets, t.instance.key).Success?
    requires Influx.CreateAuthOp !in Influx.ServerAt(e.world, t.client.address).faults
    ensures var server := Influx.ServerAt(e.world, t.client.address);
      var built := BuildPermissions(spec.permissions, IdOf(orgStatus, t.instance.key), cluster.buckets, t.instance.key);
      var create := AuthorizationCreate(AuthorizationRequestFor(spec, IdOf(orgStatus, t.instance.key).value, built.value));
      var r := SyncAuthorization(spec, orgStatus, own, cluster, render, t, e);
      && (spec.token.secretSpec.None? ==> r.0.None? && r.1.calls == e.calls + [create])
      && (spec.token.secretSpec.Some? ==>
            var secret := spec.token.secretSpec.value;
            match render(secret.nameTemplate, t.instance.key)
            case RenderFailed(m) =>
              r.0 == Some(SecretCreation(m)) && r.1.calls == e.calls + [create]
            case Rendered(n) =>
              && r.1.calls == e.calls + [create, SecretCreate(secret.namespace, n, secret.key,
                                                              Influx.TokenFor(server.nextId))]
              && (r.0.None? <==> cluster.secretCreateError.None?)
              && (cluster.secretCreateError.Some? ==>
                    r.0 == Some(SecretStoreError(cluster.secretCreateError.value))))
  {
  }

  /** The references the authorization's Organization walks, when it exists. */
  ghost predicate ValidOrder(auth: Authorization, cluster: Cluster, order: seq<InstanceKey>)
  {
    auth.spec.organization in cluster.organizations ==>
      IsVisitOrder(cluster.organizations[auth.spec.organization].spec.instanceRefs, order)
  }

  /** `Reconcile` for a fetched Authorization. A missing Organization ends the
      reconcile quietly; otherwise the status is rebuilt through the
      Organization's walk and written only on success (the status map is never
      nil, so the `!= nil` guard always passes). */
  function ReconcileAuthorization(
    auth: Authorization, cluster: Cluster, order: seq<InstanceKey>, world: Influx.World,
    render: (string, InstanceKey) -> Rendering): (r: Reconciled)
    requires ValidOrder(auth, cluster, order)
    ensures auth.spec.organization !in cluster.organizations ==>
      r == Reconciled(None, auth.status, world, [])
    ensures r.error.Some? ==> r.status == auth.status
    ensures r.error.None? && auth.spec.organization in cluster.organizations ==>
      forall k :: Find(r.status, k).Some? ==>
        |order| > 0 && k == order[0] && IsRef(cluster.organizations[auth.spec.organization].spec.instanceRefs, k)
    // which error: the walk's own failures, else exactly the step's outcome
    ensures auth.spec.organization in cluster.organizations ==>
      var org := cluster.organizations[auth.spec.organization];
      var refs := org.spec.instanceRefs;
      && (|order| == 0 ==> r.error.None?)
      && (|order| > 0 && order[0] !in cluster.instances ==> r.error == Some(InstanceNotFound(order[0])))
      && ((|order| > 0 && order[0] in cluster.instances && !Usable(refs[order[0].namespace][order[0].name])) ==>
            r.error == Some(OrgHasNoAuthorization))
      && (Reaches(refs, order, cluster.instances) ==>
            r.error == SyncAuthorization(auth.spec, org.status, auth.status, cluster, render,
                                         FirstTarget(refs, order, cluster.instances), Fresh(world)).0)
    // the written status holds the id already recorded for the visited
    // instance, or else the id the create handed out
    ensures r.error.None? && auth.spec.organization in cluster.organizations && |order| == 0 ==>
      r.status == map[]
    ensures r.error.None? && auth.spec.organization in cluster.organizations && |order| > 0 ==>
      && order[0] in cluster.instances
      && var server := Influx.ServerAt(world, cluster.instances[order[0]]);
         r.status == AddInstance(map[], order[0],
           if IdOf(auth.status, order[0]).Some? then IdOf(auth.status, order[0])
           else Some(InfluxID(Influx.Hex(server.nextId))))
    // only the server of the visited Instance can change
    ensures FramedTo(world, r.world, WalkedAddress(order, cluster.instances))
  {
    if auth.spec.organization !in cluster.organizations then
      Reconciled(None, auth.status, world, [])
    else
      var org := cluster.organizations[auth.spec.organization];
      var walked := ForEachInstanceClient(
        org.spec.instanceRefs, order, cluster.instances,
        (t, e) => SyncAuthorization(auth.spec, org.status, auth.status, cluster, render, t, e),
        Fresh(world));
      Persist(auth.status, walked)
  }
}

=== FILE: bucket_controller.dfy ===
/** `BucketReconciler.Reconcile`: find the bucket by name on the Organization's
    instance, create it when the lookup says "not found", otherwise correct a
    drifted description, and record the bucket's id. */
module BucketController {
  import opened Wrappers
  import opened Api
  import Influx
  import opened Controllers

  /** Nanoseconds in a second. */
  const Second: int := 1_000_000_000

  /** `int64(d.Seconds())` for a duration of `nanos` nanoseconds: the quotient
      truncated toward zero (Dafny's own `/` rounds toward negative infinity
      for a negative dividend). */
  function WholeSeconds(nanos: int): (s: int)
    ensures nanos >= 0 ==> 0 <= s * Second <= nanos < (s + 1) * Second
    ensures nanos < 0 ==> (s - 1) * Second < nanos <= s * Second <= 0
  {
    if nanos >= 0 then nanos / Second else -((-nanos) / Second)
  }

  /** `domainBucket`: the create request for `spec` in organization `orgId`.
      `parseDuration` stands for `time.ParseDuration`, giving nanoseconds or
      `None` when the text does not parse. */
  function DomainBucket(orgId: Option<InfluxID>, spec: BucketSpec, parseDuration: string -> Option<int>)
    : (b: Influx.Bucket)
    ensures b.id.None? && b.name == spec.name && b.description == Some(spec.description)
    ensures b.orgId == ToStringPtr(orgId)
    ensures spec.retentionPolicy == "" ==> b.retentionRules == []
    ensures |b.retentionRules| <= 1
    ensures |b.retentionRules| == 1
        <==> spec.retentionPolicy != "" && parseDuration(spec.retentionPolicy).Some?
    ensures |b.retentionRules| == 1 ==>
      b.retentionRules[0].everySeconds == WholeSeconds(parseDuration(spec.retentionPolicy).value)
  {
    var rules :=
      if spec.retentionPolicy == "" then []
      else match parseDuration(spec.retentionPolicy)
        case Some(nanos) => [Influx.RetentionRule(WholeSeconds(nanos))]
        case None => [];
    Influx.Bucket(None, spec.name, ToStringPtr(orgId), Some(spec.description), rules)
  }

  /** An existing bucket is updated when it has no description or a different one. */
  predicate BucketDrifted(b: Influx.Bucket, spec: BucketSpec)
  {
    b.description.None? || b.description.value != spec.description
  }

  /** The callback `Reconcile` hands to `forEachInstanceClient`; `orgStatus` is
      the status of the bucket's Organization. */
  function SyncBucket(
    spec: BucketSpec, orgStatus: Instances, parseDuration: string -> Option<int>, t: Target, e: Env)
    : (r: (Option<Error>, Env))
    // a lookup error that does not say "not found" is wrapped with the instance and returned
    ensures var server := Influx.ServerAt(e.world, t.client.address);
      var found := Influx.FindBucketByName(server, spec.name);
      found.Failure? && !Influx.Contains(found.error, "not found") ==>
        r == (Some(AtInstance(t.instance.key, InfluxError(found.error))),
              e.(calls := e.calls + [BucketLookup(spec.name)]))
    // "not found" creates the bucket, in the Organization's id for this very instance (nil if none)
    ensures var server := Influx.ServerAt(e.world, t.client.address);
      var found := Influx.FindBucketByName(server, spec.name);
      var request := DomainBucket(IdOf(orgStatus, t.instance.key), spec, parseDuration);
      found.Failure? && Influx.Contains(found.error, "not found") ==>
        var create := Influx.CreateBucket(server, request);
        && r.1.calls == e.calls + [BucketLookup(spec.name), BucketCreate(request)]
        // the step fails exactly when the create does, with its error wrapped
        && r.0 == (if create.Success? then None else Some(AtInstance(t.instance.key, InfluxError(create.error))))
        && (r.0.Some? ==> r.0.value.AtInstance? && r.0.value.key == t.instance.key
                          && r.1.status == e.status && r.1.world == e.world)
        && (r.0.None? ==>
              && t.client.address in e.world
              && r.1.status == AddInstance(e.status, t.instance.key, Some(InfluxID(Influx.Hex(server.nextId))))
              && r.1.world == e.world[t.client.address := server.(
                   buckets := server.buckets[spec.name := request.(id := Some(Influx.Hex(server.nextId)))],
                   nextId := server.nextId + 1)])
    // an existing bucket with a drifted description is updated in its description only
    ensures var server := Influx.ServerAt(e.world, t.client.address);
      var found := Influx.FindBucketByName(server, spec.name);
      found.Success? && BucketDrifted(found.value, spec) ==>
        var update := Influx.UpdateBucket(server, found.value.(description := Some(spec.description)));
        && r.1.calls == e.calls + [BucketLookup(spec.name),
                                   BucketUpdate(found.value.(description := Some(spec.description)))]
        // the step fails exactly when the update does, with its error wrapped
        && r.0 == (if update.Success? then None else Some(AtInstance(t.instance.key, InfluxError(update.error))))
        && (r.0.Some? ==> r.1.status == e.status && r.1.world == e.world)
        && (r.0.None? ==>
              && t.client.address in e.world
              && r.1.status == AddInstance(e.status, t.instance.key, FromStringPtr(found.value.id))
              && r.1.world == e.world[t.client.address := server.(buckets := server.buckets[
                   found.value.name := found.value.(description := Some(spec.description))])])
    // an existing bucket that matches is recorded with no mutating call
    ensures var server := Influx.ServerAt(e.world, t.client.address);
      var found := Influx.FindBucketByName(server, spec.name);
      found.Success? && !BucketDrifted(found.value, spec) ==>
        r == (None, Env(AddInstance(e.status, t.instance.key, FromStringPtr(found.value.id)),
                        e.world, e.calls + [BucketLookup(spec.name)]))
    // nothing but the target server ever changes
    ensures FramedTo(e.world, r.1.world, Some(t.client.address))
  {
    var key := t.instance.key;
    var server := Influx.ServerAt(e.world, t.client.address);
    var calls := e.calls + [BucketLookup(spec.name)];
    match Influx.FindBucketByName(server, spec.name)
    case Failure(msg) =>
      if !Influx.Contains(msg, "not found") then
        (Some(AtInstance(key, InfluxError(msg))), e.(calls := calls))
      else
        var request := DomainBucket(IdOf(orgStatus, key), spec, parseDuration);
        var calls' := calls + [BucketCreate(request)];
        (match Influx.CreateBucket(server, request)
         case Failure(msg') =>
           (Some(AtInstance(key, InfluxError(msg'))), e.(calls := calls'))
         case Success((created, server')) =>
           (None, Env(AddInstance(e.status, key, FromStringPtr(created.id)),
                      e.world[t.client.address := server'], calls')))
    case Success(existing) =>
      if BucketDrifted(existing, spec) then
        var wanted := existing.(description := Some(spec.description));
        var calls' := calls + [BucketUpdate(wanted)];
        match Influx.UpdateBucket(server, wanted)
        case Failure(msg) =>
          (Some(AtInstance(key, InfluxError(msg))), e.(calls := calls'))
        case Success((updated, server')) =>
          (None, Env(AddInstance(e.status, key, FromStringPtr(updated.id)),
                     e.world[t.client.address := server'], calls'))
      else
        (None, e.(status := AddInstance(e.status, key, FromStringPtr(existing.id)), calls := calls))
  }

  /** The references the bucket's Organization walks, when that Organization exists. */
  ghost predicate ValidOrder(bucket: Bucket, cluster: Cluster, order: seq<InstanceKey>)
  {
    bucket.spec.organization in cluster.organizations ==>
      IsVisitOrder(cluster.organizations[bucket.spec.organization].spec.instanceRefs, order)
  }

  /** `Reconcile` for a fetched Bucket. A missing Organization ends the reconcile
      quietly (the not-found error is ignored); otherwise the status is rebuilt
      through the Organization's walk and written only on success. */
  function ReconcileBucket(
    bucket: Bucket, cluster: Cluster, order: seq<InstanceKey>, world: Influx.World,
    parseDuration: string -> Option<int>): (r: Reconciled)
    requires ValidOrder(bucket, cluster, order)
    ensures bucket.spec.organization !in cluster.organizations ==>
      r == Reconciled(None, bucket.status, world, [])
    ensures r.error.Some? ==> r.status == bucket.status
    ensures r.error.None? && bucket.spec.organization in cluster.organizations ==>
      forall k :: Find(r.status, k).Some? ==>
        |order| > 0 && k == order[0] && IsRef(cluster.organizations[bucket.spec.organization].spec.instanceRefs, k)
    // the written status is built from nothing but the bucket's remote id:
    // the existing bucket's, or the one the create handed out
    ensures r.error.None? && bucket.spec.organization in cluster.organizations && |order| == 0 ==>
      r.status == map[]
    ensures r.error.None? && bucket.spec.organization in cluster.organizations && |order| > 0 ==>
      && order[0] in cluster.instances
      && var server := Influx.ServerAt(world, cluster.instances[order[0]]);
         r.status == AddInstance(map[], order[0],
           if bucket.spec.name in server.buckets then FromStringPtr(server.buckets[bucket.spec.name].id)
           else Some(InfluxID(Influx.Hex(server.nextId))))
    // which error: the walk's own failures, else exactly the step's outcome
    ensures bucket.spec.organization in cluster.organizations ==>
      var refs := cluster.organizations[bucket.spec.organization].spec.instanceRefs;
      && (|order| == 0 ==> r.error.None?)
      && (|order| > 0 && order[0] !in cluster.instances ==> r.error == Some(InstanceNotFound(order[0])))
      && ((|order| > 0 && order[0] in cluster.instances && !Usable(refs[order[0].namespace][order[0].name])) ==>
            r.error == Some(OrgHasNoAuthorization))
      && (Reaches(refs, order, cluster.instances) ==>
            r.error == SyncBucket(bucket.spec, cluster.organizations[bucket.spec.organization].status,
                                  parseDuration, FirstTarget(refs, order, cluster.instances), Fresh(world)).0)
    ensures forall i :: 0 <= i < |r.calls| ==> !r.calls[i].OrgLookup? && !r.calls[i].OrgUpdate?
    // only the server of the visited Instance can change
    ensures FramedTo(world, r.world, WalkedAddress(order, cluster.instances))
  {
    if bucket.spec.organization !in cluster.organizations then
      Reconciled(None, bucket.status, world, [])
    else
      var org := cluster.organizations[bucket.spec.organization];
      var walked := ForEachInstanceClient(
        org.spec.instanceRefs, order, cluster.instances,
        (t, e) => SyncBucket(bucket.spec, org.status, parseDuration, t, e), Fresh(world));
      Persist(bucket.status, walked)
  }
}

=== FILE: controllers.dfy ===
/** What the three reconcilers share: the pointer conversions, the error values,
    the cluster's object store, the walk over an Organization's instance
    references (`forEachInstanceClient`), and the rule that a reconcile either
    replaces the status with the map it built or leaves it untouched. */
module Controllers {
  import opened Wrappers
  import opened Api
  import Influx

  // ---------------------------------------------------------------------------
  // Pointer conversions between InfluxID and string
  // ---------------------------------------------------------------------------

  /** `toStringPtr`: nil stays nil, otherwise the same characters as a plain string. */
  function ToStringPtr(v: Option<InfluxID>): (r: Option<string>)
    ensures r.None? <==> v.None?
    ensures v.Some? ==> r.value == v.value.hex
  {
    match v
    case None => None
    case Some(id) => Some(id.hex)
  }

  /** `fromStringPtr`: nil stays nil, otherwise the same characters as an InfluxID. */
  function FromStringPtr(s: Option<string>): (r: Option<InfluxID>)
    ensures r.None? <==> s.None?
    ensures s.Some? ==> r.value.hex == s.value
  {
    match s
    case None => None
    case Some(str) => Some(InfluxID(str))
  }

  lemma FromToStringPtr(v: Option<InfluxID>)
    ensures FromStringPtr(ToStringPtr(v)) == v
  {
  }

  lemma ToFromStringPtr(s: Option<string>)
    ensures ToStringPtr(FromStringPtr(s)) == s
  {
  }

  // ---------------------------------------------------------------------------
  // Errors
  // ---------------------------------------------------------------------------

  /** The errors a reconcile can return. */
  datatype Error =
      /** Fetching the referenced Instance object failed. */
    | InstanceNotFound(key: InstanceKey)
      /** `ErrOrgHasNoAuthorization`: the reference is not a usable token. */
    | OrgHasNoAuthorization
      /** An error returned by the Influx client, unwrapped. */
    | InfluxError(message: string)
      /** `influx instance 'namespace/name': <cause>`. */
    | AtInstance(key: InstanceKey, cause: Error)
      /** `organization does not have an ID`. */
    | OrgHasNoId
      /** Fetching a Bucket named by a permission failed. */
    | BucketFetchFailed(name: string)
      /** `unsupported resource type "<type>"`. */
    | UnsupportedResourceType(resourceType: string)
      /** `attempting secret creation: <cause>`: the name template did not render. */
    | SecretCreation(message: string)
      /** Writing the token Secret to the object store failed. */
    | SecretStoreError(message: string)

  // ---------------------------------------------------------------------------
  // The cluster side
  // ---------------------------------------------------------------------------

  /** The object store as a reconcile sees it: Instance objects by key (with
      their address), and the Organizations and Buckets of the reconciled
      object's own namespace, by name. A Secret write fails with
      `secretCreateError` when that is present. */
  datatype Cluster = Cluster(
    instances: map<InstanceKey, string>,
    organizations: map<string, Organization>,
    buckets: map<string, Bucket>,
    secretCreateError: Option<string>)

  /** A fetched Instance object. */
  datatype Instance = Instance(key: InstanceKey, address: string)

  /** An Influx client bound to an address with a token. */
  datatype InfluxClient = InfluxClient(address: string, token: string)

  /** What `forEachInstanceClient` hands its callback. */
  datatype Target = Target(instance: Instance, client: InfluxClient)

  /** Only the token variant carrying a token can build a client. */
  predicate Usable(auth: InstanceAuthorization)
  {
    auth.authType == TokenAuth && auth.token.Some?
  }

  /** `order` is one iteration order of the references: each (namespace, name)
      exactly once. Go leaves the order unspecified, so every enumeration is
      possible. */
  ghost predicate IsVisitOrder(refs: InstanceRefs, order: seq<InstanceKey>)
  {
    && (forall i :: 0 <= i < |order| ==> IsRef(refs, order[i]))
    && (forall k :: IsRef(refs, k) ==> k in order)
    && (forall i, j :: 0 <= i < j < |order| ==> order[i] != order[j])
  }

  /** `forEachInstanceClient`: visit the references in `order`, fetch the first
      one's Instance, check its authorization, and return the callback's result
      for it. The `return` sits inside the inner loop, so no later reference is
      ever visited. `fn` maps the target and the callback's state to an error (or
      none) and the new state. */
  function ForEachInstanceClient<S(==)>(
    refs: InstanceRefs,
    order: seq<InstanceKey>,
    instances: map<InstanceKey, string>,
    fn: (Target, S) -> (Option<Error>, S),
    s: S): (r: (Option<Error>, S))
    requires IsVisitOrder(refs, order)
    ensures (forall k :: !IsRef(refs, k)) ==> r == (None, s)
    ensures |order| > 0 && order[0] !in instances ==>
      r == (Some(InstanceNotFound(order[0])), s)
    ensures (|order| > 0 && order[0] in instances
             && !Usable(refs[order[0].namespace][order[0].name])) ==>
      r == (Some(OrgHasNoAuthorization), s)
    ensures (|order| > 0 && order[0] in instances
             && Usable(refs[order[0].namespace][order[0].name])) ==>
      var address := instances[order[0]];
      r == fn(Target(Instance(order[0], address),
                     InfluxClient(address, refs[order[0].namespace][order[0].name].token.value)), s)
  {
    if |order| == 0 then
      (None, s)
    else
      var k := order[0];
      if k !in instances then
        (Some(InstanceNotFound(k)), s)
      else
        var auth := refs[k.namespace][k.name];
        if !Usable(auth) then
          (Some(OrgHasNoAuthorization), s)
        else
          var address := instances[k];
          fn(Target(Instance(k, address), InfluxClient(address, auth.token.value)), s)
  }

  /** The walk reaches its callback: the first visited reference has a fetched
      Instance and a usable token. */
  predicate Reaches(refs: InstanceRefs, order: seq<InstanceKey>, instances: map<InstanceKey, string>)
  {
    && |order| > 0 && order[0] in instances && IsRef(refs, order[0])
    && Usable(refs[order[0].namespace][order[0].name])
  }

  /** What the walk hands its callback when it reaches it. */
  function FirstTarget(refs: InstanceRefs, order: seq<InstanceKey>, instances: map<InstanceKey, string>): Target
    requires Reaches(refs, order, instances)
  {
    var k := order[0];
    Target(Instance(k, instances[k]), InfluxClient(instances[k], refs[k.namespace][k.name].token.value))
  }

  /** The walk over all references behaves exactly like the walk over the one
      reference it visits first: no other reference is fetched, checked or
      handed to the callback, whatever it holds. */
  lemma ForEachInstanceClientFirstOnly<S>(
    refs: InstanceRefs,
    order: seq<InstanceKey>,
    instances: map<InstanceKey, string>,
    fn: (Target, S) -> (Option<Error>, S),
    s: S)
    requires IsVisitOrder(refs, order) && |order| > 0
    ensures IsRef(refs, order[0])
    ensures var k := order[0];
      var single := map[k.namespace := map[k.name := refs[k.namespace][k.name]]];
      && IsVisitOrder(single, [k])
      && ForEachInstanceClient(refs, order, instances, fn, s)
         == ForEachInstanceClient(single, [k], instances, fn, s)
  {
  }

  // ---------------------------------------------------------------------------
  // Callback state and the status write
  // ---------------------------------------------------------------------------

  /** Everything a reconcile does outside its own status, in issue order: the
      Influx client calls, and the write of the token Secret to the object store. */
  datatype Effect =
    | OrgLookup(name: string)
    | OrgUpdate(org: Influx.Org)
    | BucketLookup(name: string)
    | BucketCreate(bucket: Influx.Bucket)
    | BucketUpdate(bucket: Influx.Bucket)
    | AuthorizationCreate(request: Influx.AuthorizationRequest)
    | SecretCreate(namespace: string, name: string, key: string, value: string)

  /** The effects that change state somewhere. */
  predicate Mutating(c: Effect)
  {
    !c.OrgLookup? && !c.BucketLookup?
  }

  /** `after` serves the same addresses as `before`, and every server other than
      the one at `address` is exactly as it was. */
  predicate FramedTo(before: Influx.World, after: Influx.World, address: Option<string>)
  {
    && after.Keys == before.Keys
    && forall a :: a in before && Some(a) != address ==> after[a] == before[a]
  }

  /** The address of the Instance the walk hands to its callback, if any. */
  function WalkedAddress(order: seq<InstanceKey>, instances: map<InstanceKey, string>): Option<string>
  {
    if |order| > 0 && order[0] in instances then Some(instances[order[0]]) else None
  }

  /** What a callback threads through: the status it is building, the Influx
      world it acts on, and the effects issued so far. */
  datatype Env = Env(status: Instances, world: Influx.World, calls: seq<Effect>)

  /** The result of one reconcile: its error, the object's status afterwards,
      the Influx world afterwards, and every call issued. */
  datatype Reconciled = Reconciled(
    error: Option<Error>,
    status: Instances,
    world: Influx.World,
    calls: seq<Effect>)

  /** A reconcile starts from an empty status and the given world. */
  function Fresh(world: Influx.World): Env
  {
    Env(map[], world, [])
  }

  /** The status is written only when the walk succeeded, and then it is the
      freshly built map, not a merge with the old one. */
  function Persist(previous: Instances, walked: (Option<Error>, Env)): (r: Reconciled)
    ensures r.error == walked.0 && r.world == walked.1.world && r.calls == walked.1.calls
    ensures r.error.Some? ==> r.status == previous
    ensures r.error.None? ==> r.status == walked.1.status
  {
    Reconciled(walked.0, if walked.0.None? then walked.1.status else previous, walked.1.world, walked.1.calls)
  }
}

=== FILE: influx.dfy ===
/** An abstract Influx instance, the remote the reconcilers talk to through
    the Influx client: organizations and buckets by name, the authorizations
    created so far, an id counter, and the operations that currently fail.
    Every client call the reconcilers make is a pure function on this state. */
module Influx {
  import opened Wrappers

  /** The client operations the reconcilers use. */
  datatype Op = FindOrgOp | UpdateOrgOp | FindBucketOp | CreateBucketOp | UpdateBucketOp | CreateAuthOp

  datatype Org = Org(id: Option<string>, name: string, description: Option<string>)

  datatype RetentionRule = RetentionRule(everySeconds: int)

  /** A bucket as the client sends and receives it; `id` is nil in a create request. */
  datatype Bucket = Bucket(
    id: Option<string>,
    name: string,
    orgId: Option<string>,
    description: Option<string>,
    retentionRules: seq<RetentionRule>)

  datatype PermissionAction = ReadAction | WriteAction

  /** One permission of an authorization: an action on a resource of `resourceType`
      in organization `orgId`, narrowed to the single resource `id` when present. */
  datatype Permission = Permission(
    action: PermissionAction,
    resourceType: string,
    orgId: Option<string>,
    id: Option<string>)

  datatype AuthorizationRequest = AuthorizationRequest(
    description: Option<string>,
    orgId: Option<string>,
    permissions: seq<Permission>)

  /** A created authorization and the one-time secret token it carries. */
  datatype Authorization = Authorization(id: string, token: string, request: AuthorizationRequest)

  /** The state of one Influx instance. An operation in `faults` fails with the
      mapped message (transport errors, permission errors, ...). */
  datatype Server = Server(
    orgs: map<string, Org>,
    buckets: map<string, Bucket>,
    authorizations: seq<Authorization>,
    nextId: nat,
    faults: map<Op, string>)

  /** Every Influx instance the cluster can reach, by address. */
  type World = map<string, Server>

  const ConnectionRefused := "connection refused"

  /** A server on which every operation fails. */
  const Unreachable := Server(map[], map[], [], 0,
    map[FindOrgOp := ConnectionRefused, UpdateOrgOp := ConnectionRefused,
        FindBucketOp := ConnectionRefused, CreateBucketOp := ConnectionRefused,
        UpdateBucketOp := ConnectionRefused, CreateAuthOp := ConnectionRefused])

  /** The server a client bound to `address` talks to; an address nobody serves
      behaves as `Unreachable`. */
  function ServerAt(world: World, address: string): Server
  {
    if address in world then world[address] else Unreachable
  }

  /** A server with no injected failures. */
  predicate Healthy(s: Server)
  {
    s.faults == map[]
  }

  // ---------------------------------------------------------------------------
  // Fresh identifiers
  // ---------------------------------------------------------------------------

  function HexDigit(d: nat): char
    requires d < 16
  {
    "0123456789abcdef"[d]
  }

  /** The lower-case hexadecimal rendering of `n`, the shape of an Influx id. */
  function Hex(n: nat): (s: string)
    ensures |s| > 0
    decreases n
  {
    if n < 16 then [HexDigit(n)] else Hex(n / 16) + [HexDigit(n % 16)]
  }

  /** The token handed out with the authorization numbered `n`. */
  function TokenFor(n: nat): string
  {
    "token-" + Hex(n)
  }

  // ---------------------------------------------------------------------------
  // Client operations
  // ---------------------------------------------------------------------------

  function OrgNotFound(name: string): string
  {
    "organization '" + name + "' not found"
  }

  function BucketNotFound(name: string): string
  {
    "bucket '" + name + "' not found"
  }

  function FindOrganizationByName(s: Server, name: string): (r: Result<Org, string>)
    ensures FindOrgOp !in s.faults && name in s.orgs ==> r == Success(s.orgs[name])
    ensures r.Success? ==> name in s.orgs && r.value == s.orgs[name]
  {
    if FindOrgOp in s.faults then Failure(s.faults[FindOrgOp])
    else if name in s.orgs then Success(s.orgs[name])
    else Failure(OrgNotFound(name))
  }

  /** Replace the organization of the same name; it must exist. */
  function UpdateOrganization(s: Server, org: Org): (r: Result<(Org, Server), string>)
    ensures r.Success? ==> r.value.0 == org && r.value.1.orgs == s.orgs[org.name := org]
    ensures r.Success? ==> r.value.1.buckets == s.buckets && r.value.1.faults == s.faults
  {
    if UpdateOrgOp in s.faults then Failure(s.faults[UpdateOrgOp])
    else if org.name !in s.orgs then Failure(OrgNotFound(org.name))
    else Success((org, s.(orgs := s.orgs[org.name := org])))
  }

  function FindBucketByName(s: Server, name: string): (r: Result<Bucket, string>)
    ensures FindBucketOp !in s.faults && name in s.buckets ==> r == Success(s.buckets[name])
    ensures FindBucketOp !in s.faults && name !in s.buckets ==> r == Failure(BucketNotFound(name))
    ensures r.Success? ==> name in s.buckets && r.value == s.buckets[name]
  {
    if FindBucketOp in s.faults then Failure(s.faults[FindBucketOp])
    else if name in s.buckets then Success(s.buckets[name])
    else Failure(BucketNotFound(name))
  }

  /** Create a bucket under a fresh id; a name already taken is a conflict. */
  function CreateBucket(s: Server, b: Bucket): (r: Result<(Bucket, Server), string>)
    ensures r.Success? ==> b.name !in s.buckets
    ensures r.Success? ==> r.value.0 == b.(id := Some(Hex(s.nextId)))
    ensures r.Success? ==> r.value.1.buckets == s.buckets[b.name := r.value.0]
    ensures r.Success? ==> r.value.1.orgs == s.orgs && r.value.1.faults == s.faults
  {
    if CreateBucketOp in s.faults then Failure(s.faults[CreateBucketOp])
    else if b.name in s.buckets then Failure("bucket with name " + b.name + " already exists")
    else
      var created := b.(id := Some(Hex(s.nextId)));
      Success((created, s.(buckets := s.buckets[b.name := created], nextId := s.nextId + 1)))
  }

  /** Replace the bucket of the same name; it must exist. */
  function UpdateBucket(s: Server, b: Bucket): (r: Result<(Bucket, Server), string>)
    ensures r.Success? ==> r.value.0 == b && r.value.1.buckets == s.buckets[b.name := b]
    ensures r.Success? ==> r.value.1.orgs == s.orgs && r.value.1.faults == s.faults
  {
    if UpdateBucketOp in s.faults then Failure(s.faults[UpdateBucketOp])
    else if b.name !in s.buckets then Failure(BucketNotFound(b.name))
    else Success((b, s.(buckets := s.buckets[b.name := b])))
  }

  /** Create an authorization under a fresh id, with a fresh token. */
  function CreateAuthorization(s: Server, req: AuthorizationRequest): (r: Result<(Authorization, Server), string>)
    ensures r.Success? ==> r.value.0.request == req
    ensures r.Success? ==> r.value.1.authorizations == s.authorizations + [r.value.0]
    ensures r.Success? ==> r.value.1.orgs == s.orgs && r.value.1.buckets == s.buckets
    ensures r.Success? ==> r.value.1.faults == s.faults
  {
    if CreateAuthOp in s.faults then Failure(s.faults[CreateAuthOp])
    else
      var created := Authorization(Hex(s.nextId), TokenFor(s.nextId), req);
      Success((created, s.(authorizations := s.authorizations + [created], nextId := s.nextId + 1)))
  }

  // ---------------------------------------------------------------------------
  // Error-message matching
  // ---------------------------------------------------------------------------

  /** `strings.Contains(s, sub)`. */
  predicate Contains(s: string, sub: string)
    decreases |s|
  {
    sub <= s || (|s| > 0 && Contains(s[1..], sub))
  }

  /** Any text ending in `sub` contains it. */
  lemma {:induction false} ContainsSuffix(pre: string, sub: string)
    ensures Contains(pre + sub, sub)
    decreases |pre|
  {
    if |pre| == 0 {
      assert pre + sub == sub;
    } else {
      assert (pre + sub)[1..] == pre[1..] + sub;
      ContainsSuffix(pre[1..], sub);
    }
  }

  /** The client's error for a missing bucket takes the "not found" branch. */
  lemma BucketNotFoundMatches(name: string)
    ensures Contains(BucketNotFound(name), "not found")
  {
    assert BucketNotFound(name) == ("bucket '" + name + "' ") + "not found";
    ContainsSuffix("bucket '" + name + "' ", "not found");
  }
}

=== FILE: organization_controller.dfy ===
/** `OrganizationReconciler.Reconcile`: Organizations are never created on an
    Influx instance. The reconciler finds the organization by name, corrects a
    drifted description, and records the organization's id. */
module OrganizationController {
  import opened Wrappers
  import opened Api
  import Influx
  import opened Controllers

  /** The description drifted: the remote has one and it differs from the spec.
      A remote organization without a description is left alone. */
  predicate OrgDrifted(org: Influx.Org, spec: OrganizationSpec)
  {
    org.description.Some? && org.description.value != spec.description
  }

  /** The callback `Reconcile` hands to `forEachInstanceClient`. */
  function SyncOrganization(spec: OrganizationSpec, t: Target, e: Env): (r: (Option<Error>, Env))
    // a failed lookup is returned as is, after the lookup call alone
    ensures var found := Influx.FindOrganizationByName(Influx.ServerAt(e.world, t.client.address), spec.name);
      found.Failure? ==>
        r == (Some(InfluxError(found.error)), e.(calls := e.calls + [OrgLookup(spec.name)]))
    // an organization whose description matches is recorded without any mutation
    ensures var found := Influx.FindOrganizationByName(Influx.ServerAt(e.world, t.client.address), spec.name);
      found.Success? && !OrgDrifted(found.value, spec) ==>
        && r.0.None?
        && r.1 == Env(AddInstance(e.status, t.instance.key, FromStringPtr(found.value.id)),
                      e.world, e.calls + [OrgLookup(spec.name)])
    // a drifted description is updated to the spec's, keeping everything else
    ensures var found := Influx.FindOrganizationByName(Influx.ServerAt(e.world, t.client.address), spec.name);
      found.Success? && OrgDrifted(found.value, spec) ==>
        var update := Influx.UpdateOrganization(Influx.ServerAt(e.world, t.client.address),
                                                found.value.(description := Some(spec.description)));
        && r.1.calls == e.calls + [OrgLookup(spec.name),
                                   OrgUpdate(found.value.(description := Some(spec.description)))]
        // the step fails exactly when the update does, with its error
        && r.0 == (if update.Success? then None else Some(InfluxError(update.error)))
        && (r.0.Some? ==> r.1.status == e.status && r.1.world == e.world)
        && (r.0.None? ==>
              var server := e.world[t.client.address];
              && t.client.address in e.world
              && r.1.status == AddInstance(e.status, t.instance.key, FromStringPtr(found.value.id))
              && r.1.world == e.world[t.client.address := server.(orgs := server.orgs[
                   found.value.name := found.value.(description := Some(spec.description))])])
    // nothing but the target server ever changes
    ensures FramedTo(e.world, r.1.world, Some(t.client.address))
  {
    var server := Influx.ServerAt(e.world, t.client.address);
    var calls := e.calls + [OrgLookup(spec.name)];
    match Influx.FindOrganizationByName(server, spec.name)
    case Failure(msg) =>
      (Some(InfluxError(msg)), e.(calls := calls))
    case Success(org) =>
      if OrgDrifted(org, spec) then
        var wanted := org.(description := Some(spec.description));
        var calls' := calls + [OrgUpdate(wanted)];
        match Influx.UpdateOrganization(server, wanted)
        case Failure(msg) =>
          (Some(InfluxError(msg)), e.(calls := calls'))
        case Success((updated, server')) =>
          (None, Env(AddInstance(e.status, t.instance.key, FromStringPtr(updated.id)),
                     e.world[t.client.address := server'], calls'))
      else
        (None, e.(status := AddInstance(e.status, t.instance.key, FromStringPtr(org.id)), calls := calls))
  }

  /** `Reconcile` for a fetched Organization: rebuild the status from empty
      through the walk, and write it only if the walk succeeded. */
  function ReconcileOrganization(
    org: Organization, cluster: Cluster, order: seq<InstanceKey>, world: Influx.World): (r: Reconciled)
    requires IsVisitOrder(org.spec.instanceRefs, order)
    // all or nothing: a failed reconcile leaves the status as it was
    ensures r.error.Some? ==> r.status == org.status
    // replace, not merge: a written status holds at most the visited reference
    ensures r.error.None? ==> forall k :: Find(r.status, k).Some? ==>
        |order| > 0 && k == order[0] && IsRef(org.spec.instanceRefs, k)
    // organizations are looked up and updated, never created
    // the written status is built from nothing but the remote organization's id
    ensures r.error.None? && |order| == 0 ==> r.status == map[]
    ensures r.error.None? && |order| > 0 ==>
      && order[0] in cluster.instances
      && org.spec.name in Influx.ServerAt(world, cluster.instances[order[0]]).orgs
      && r.status == AddInstance(map[], order[0],
           FromStringPtr(Influx.ServerAt(world, cluster.instances[order[0]]).orgs[org.spec.name].id))
    // which error: the walk's own failures, else exactly the step's outcome
    ensures |order| == 0 ==> r.error.None?
    ensures |order| > 0 && order[0] !in cluster.instances ==> r.error == Some(InstanceNotFound(order[0]))
    ensures (|order| > 0 && order[0] in cluster.instances
             && !Usable(org.spec.instanceRefs[order[0].namespace][order[0].name])) ==>
      r.error == Some(OrgHasNoAuthorization)
    ensures Reaches(org.spec.instanceRefs, order, cluster.instances) ==>
      r.error == SyncOrganization(org.spec, FirstTarget(org.spec.instanceRefs, order, cluster.instances), Fresh(world)).0
    ensures forall i :: 0 <= i < |r.calls| ==> r.calls[i].OrgLookup? || r.calls[i].OrgUpdate?
    // only the server of the visited Instance can change
    ensures FramedTo(world, r.world, WalkedAddress(order, cluster.instances))
  {
    var walked := ForEachInstanceClient(org.spec.instanceRefs, order, cluster.instances,
                                        (t, e) => SyncOrganization(org.spec, t, e), Fresh(world));
    Persist(org.status, walked)
  }
}

=== FILE: properties.dfy ===
/** Properties that relate two reconciles: a second reconcile against the state
    the first one left behind changes nothing when it visits the same reference
    first, and the case where it does even then (an Authorization whose token
    Secret could not be written). */
module Properties {
  import opened Wrappers
  import opened Api
  import Influx
  import opened Controllers
  import opened OrganizationController
  import opened BucketController
  import opened AuthorizationController

  /** A server files every organization and bucket under its own name. */
  ghost predicate Consistent(s: Influx.Server)
  {
    && (forall n :: n in s.orgs ==> s.orgs[n].name == n)
    && (forall n :: n in s.buckets ==> s.buckets[n].name == n)
  }

  ghost predicate ConsistentWorld(world: Influx.World)
  {
    forall a :: a in world ==> Consistent(world[a])
  }

  ghost predicate HealthyWorld(world: Influx.World)
  {
    forall a :: a in world ==> Influx.Healthy(world[a])
  }

  /** No call in `calls` changes anything. */
  predicate ReadOnly(calls: seq<Effect>)
  {
    forall i :: 0 <= i < |calls| ==> !Mutating(calls[i])
  }

  // ---------------------------------------------------------------------------
  // Organization
  // ---------------------------------------------------------------------------

  /** One successful callback run followed by a second on its results: same
      status, same world, no mutating call. */
  lemma SyncOrganizationTwice(spec: OrganizationSpec, t: Target, world: Influx.World)
    requires ConsistentWorld(world)
    requires SyncOrganization(spec, t, Fresh(world)).0.None?
    ensures var first := SyncOrganization(spec, t, Fresh(world)).1;
      var second := SyncOrganization(spec, t, Fresh(first.world));
      && second.0.None?
      && second.1.status == first.status
      && second.1.world == first.world
      && ReadOnly(second.1.calls)
  {
  }

  /** Reconciling an Organization a second time, with the status the first run
      wrote and the world it left, writes the same status and mutates nothing,
      provided the second walk visits the same reference first (`order2` is
      the second reconcile's own enumeration of the references). */
  lemma OrganizationIdempotent(
    org: Organization, cluster: Cluster, order: seq<InstanceKey>, order2: seq<InstanceKey>,
    world: Influx.World)
    requires IsVisitOrder(org.spec.instanceRefs, order) && IsVisitOrder(org.spec.instanceRefs, order2)
    requires |order| > 0 ==> |order2| > 0 && order2[0] == order[0]
    requires ConsistentWorld(world)
    requires ReconcileOrganization(org, cluster, order, world).error.None?
    ensures var first := ReconcileOrganization(org, cluster, order, world);
      var second := ReconcileOrganization(org.(status := first.status), cluster, order2, first.world);
      && second.error.None?
      && second.status == first.status
      && second.world == first.world
      && ReadOnly(second.calls)
  {
    var refs := org.spec.instanceRefs;
    if |order| > 0 && order[0] in cluster.instances && Usable(refs[order[0].namespace][order[0].name]) {
      var k := order[0];
      var address := cluster.instances[k];
      var t := Target(Instance(k, address), InfluxClient(address, refs[k.namespace][k.name].token.value));
      SyncOrganizationTwice(org.spec, t, world);
    }
  }

  /** A successful reconcile replaces the status: whatever status the object
      had before, the reconcile does and writes exactly the same. */
  lemma OrganizationReplaces(
    org: Organization, previous: Instances, cluster: Cluster, order: seq<InstanceKey>, world: Influx.World)
    requires IsVisitOrder(org.spec.instanceRefs, order)
    requires ReconcileOrganization(org, cluster, order, world).error.None?
    ensures ReconcileOrganization(org.(status := previous), cluster, order, world)
         == ReconcileOrganization(org, cluster, order, world)
  {
  }

  // ---------------------------------------------------------------------------
  // Bucket
  // ---------------------------------------------------------------------------

  /** One successful callback run followed by a second on its results: the
      second finds the bucket the first created or corrected. */
  lemma SyncBucketTwice(
    spec: BucketSpec, orgStatus: Instances, parseDuration: string -> Option<int>,
    t: Target, world: Influx.World)
    requires ConsistentWorld(world) && HealthyWorld(world)
    requires SyncBucket(spec, orgStatus, parseDuration, t, Fresh(world)).0.None?
    ensures var first := SyncBucket(spec, orgStatus, parseDuration, t, Fresh(world)).1;
      var second := SyncBucket(spec, orgStatus, parseDuration, t, Fresh(first.world));
      && second.0.None?
      && second.1.status == first.status
      && second.1.world == first.world
      && ReadOnly(second.1.calls)
  {
  }

  /** Reconciling a Bucket a second time against a healthy world, with the status
      the first run wrote and the world it left, writes the same status and
      mutates nothing when the second walk visits the same reference first: the
      first run's bucket is found, not created again. */
  lemma BucketIdempotent(
    bucket: Bucket, cluster: Cluster, order: seq<InstanceKey>, order2: seq<InstanceKey>,
    world: Influx.World, parseDuration: string -> Option<int>)
    requires BucketController.ValidOrder(bucket, cluster, order)
    requires BucketController.ValidOrder(bucket, cluster, order2)
    requires |order| > 0 ==> |order2| > 0 && order2[0] == order[0]
    requires ConsistentWorld(world) && HealthyWorld(world)
    requires ReconcileBucket(bucket, cluster, order, world, parseDuration).error.None?
    ensures var first := ReconcileBucket(bucket, cluster, order, world, parseDuration);
      var second := ReconcileBucket(bucket.(status := first.status), cluster, order2, first.world, parseDuration);
      && second.error.None?
      && second.status == first.status
      && second.world == first.world
      && ReadOnly(second.calls)
  {
    if bucket.spec.organization in cluster.organizations {
      var org := cluster.organizations[bucket.spec.organization];
      var refs := org.spec.instanceRefs;
      if |order| > 0 && order[0] in cluster.instances && Usable(refs[order[0].namespace][order[0].name]) {
        var k := order[0];
        var address := cluster.instances[k];
        var t := Target(Instance(k, address), InfluxClient(address, refs[k.namespace][k.name].token.value));
        SyncBucketTwice(bucket.spec, org.status, parseDuration, t, world);
      }
    }
  }

  /** A successful reconcile replaces the status: whatever status the Bucket
      had before, the reconcile does and writes exactly the same. (With its
      Organization missing the reconcile writes nothing at all.) */
  lemma BucketReplaces(
    bucket: Bucket, previous: Instances, cluster: Cluster, order: seq<InstanceKey>, world: Influx.World,
    parseDuration: string -> Option<int>)
    requires BucketController.ValidOrder(bucket, cluster, order)
    requires ReconcileBucket(bucket, cluster, order, world, parseDuration).error.None?
    ensures bucket.spec.organization in cluster.organizations ==>
      ReconcileBucket(bucket.(status := previous), cluster, order, world, parseDuration)
        == ReconcileBucket(bucket, cluster, order, world, parseDuration)
  {
  }

  // ---------------------------------------------------------------------------
  // Authorization
  // ---------------------------------------------------------------------------

  /** The old status of an Authorization matters only through its entry for the
      visited instance (the idempotence key): any status that agrees there gives
      the same successful reconcile, so every other old entry is dropped. */
  lemma AuthorizationReplaces(
    auth: Authorization, previous: Instances, cluster: Cluster, order: seq<InstanceKey>,
    world: Influx.World, render: (string, InstanceKey) -> Rendering)
    requires AuthorizationController.ValidOrder(auth, cluster, order)
    requires ReconcileAuthorization(auth, cluster, order, world, render).error.None?
    requires |order| > 0 ==> IdOf(previous, order[0]) == IdOf(auth.status, order[0])
    ensures auth.spec.organization in cluster.organizations ==>
      ReconcileAuthorization(auth.(status := previous), cluster, order, world, render)
        == ReconcileAuthorization(auth, cluster, order, world, render)
  {
  }

  /** Reconciling an Authorization a second time, with the status the first run
      wrote, issues no call at all and writes the same status when the second
      walk visits the same reference first: the recorded id is the idempotence
      key, and it is recorded for that reference only. */
  lemma AuthorizationIdempotent(
    auth: Authorization, cluster: Cluster, order: seq<InstanceKey>, order2: seq<InstanceKey>,
    world: Influx.World, render: (string, InstanceKey) -> Rendering)
    requires AuthorizationController.ValidOrder(auth, cluster, order)
    requires AuthorizationController.ValidOrder(auth, cluster, order2)
    requires |order| > 0 ==> |order2| > 0 && order2[0] == order[0]
    requires ReconcileAuthorization(auth, cluster, order, world, render).error.None?
    ensures var first := ReconcileAuthorization(auth, cluster, order, world, render);
      var second := ReconcileAuthorization(auth.(status := first.status), cluster, order2, first.world, render);
      && second.error.None?
      && second.status == first.status
      && second.world == first.world
      && second.calls == []
  {
    if auth.spec.organization in cluster.organizations {
      var org := cluster.organizations[auth.spec.organization];
      var refs := org.spec.instanceRefs;
      if |order| > 0 && order[0] in cluster.instances && Usable(refs[order[0].namespace][order[0].name]) {
        var k := order[0];
        var first := ReconcileAuthorization(auth, cluster, order, world, render);
        assert IdOf(first.status, k).Some?;
        AddInstanceIdempotent(map[], k, IdOf(first.status, k));
      }
    }
  }

  /** A reconcile whose walk reaches the callback is the callback's step on the
      first visited reference, followed by the status write. */
  lemma AuthorizationStep(
    auth: Authorization, cluster: Cluster, order: seq<InstanceKey>, world: Influx.World,
    render: (string, InstanceKey) -> Rendering)
    requires AuthorizationController.ValidOrder(auth, cluster, order)
    requires auth.spec.organization in cluster.organizations
    requires |order| > 0 && order[0] in cluster.instances
    requires Usable(cluster.organizations[auth.spec.organization].spec.instanceRefs[order[0].namespace][order[0].name])
    ensures var org := cluster.organizations[auth.spec.organization];
      var k := order[0];
      var address := cluster.instances[k];
      var t := Target(Instance(k, address),
                      InfluxClient(address, org.spec.instanceRefs[k.namespace][k.name].token.value));
      ReconcileAuthorization(auth, cluster, order, world, render)
        == Persist(auth.status, SyncAuthorization(auth.spec, org.status, auth.status, cluster, render, t, Fresh(world)))
  {
  }

  /** On one instance: a step that failed at the token Secret, run again on the
      world it left and with the same (still empty) own status, sends the same
      create and fails the same way. */
  lemma SyncSecretFailureRepeats(
    spec: AuthorizationSpec, orgStatus: Instances, own: Instances, cluster: Cluster,
    render: (string, InstanceKey) -> Rendering, t: Target, world: Influx.World)
    requires var first := SyncAuthorization(spec, orgStatus, own, cluster, render, t, Fresh(world));
      first.0.Some? && (first.0.value.SecretCreation? || first.0.value.SecretStoreError?)
    ensures var first := SyncAuthorization(spec, orgStatus, own, cluster, render, t, Fresh(world));
      var second := SyncAuthorization(spec, orgStatus, own, cluster, render, t, Fresh(first.1.world));
      && |first.1.calls| > 0 && first.1.calls[0].AuthorizationCreate?
      && |second.1.calls| > 0 && second.1.calls[0] == first.1.calls[0]
      && second.0 == first.0
  {
    var k := t.instance.key;
    var first := SyncAuthorization(spec, orgStatus, own, cluster, render, t, Fresh(world));
    assert IdOf(orgStatus, k).Some? && IdOf(own, k).None?;
    var built := BuildPermissions(spec.permissions, IdOf(orgStatus, k), cluster.buckets, k);
    assert built.Success?;
    var server := Influx.ServerAt(world, t.client.address);
    assert Influx.CreateAuthOp !in server.faults;
    CreatedTokenStored(spec, orgStatus, own, cluster, render, t, Fresh(world));
    assert t.client.address in first.1.world && first.1.world[t.client.address].faults == server.faults;
    CreatedTokenStored(spec, orgStatus, own, cluster, render, t, Fresh(first.1.world));
  }

  /** The secret step runs after the create. When the Secret's name does not
      render, or the Secret cannot be written, the reconcile fails, so the new
      id is not written; the retry finds no id, sends the same create again, and
      fails the same way. */
  lemma SecretFailureDuplicatesAuthorization(
    auth: Authorization, cluster: Cluster, order: seq<InstanceKey>, world: Influx.World,
    render: (string, InstanceKey) -> Rendering)
    requires AuthorizationController.ValidOrder(auth, cluster, order)
    requires ReconcileAuthorization(auth, cluster, order, world, render).error.Some?
    requires var err := ReconcileAuthorization(auth, cluster, order, world, render).error.value;
      err.SecretCreation? || err.SecretStoreError?
    ensures var first := ReconcileAuthorization(auth, cluster, order, world, render);
      var second := ReconcileAuthorization(auth.(status := first.status), cluster, order, first.world, render);
      && first.status == auth.status
      && |first.calls| > 0 && first.calls[0].AuthorizationCreate?
      && |second.calls| > 0 && second.calls[0] == first.calls[0]
      && second.error == first.error
  {
    var org: Organization := cluster.organizations[auth.spec.organization];
    var refs: InstanceRefs := org.spec.instanceRefs;
    var k: InstanceKey := order[0];
    var address: string := cluster.instances[k];
    var t := Target(Instance(k, address), InfluxClient(address, refs[k.namespace][k.name].token.value));
    AuthorizationStep(auth, cluster, order, world, render);
    var sync1 := SyncAuthorization(auth.spec, org.status, auth.status, cluster, render, t, Fresh(world));
    SyncSecretFailureRepeats(auth.spec, org.status, auth.status, cluster, render, t, world);
    AuthorizationStep(auth, cluster, order, sync1.1.world, render);
  }
}

=== FILE: scenarios.dfy ===
/** Concrete reconciles worked through the model: an Organization whose
    description drifted, a Bucket created with a retention period, and the
    places where the code does something other than what one might expect (a
    single reference handled per reconcile, so that successive reconciles
    visiting different references first keep re-creating an Authorization; a
    permission on a bucket without an id is sent with no resource id). */
module Scenarios {
  import opened Wrappers
  import opened Api
  import Influx
  import opened Controllers
  import opened OrganizationController
  import opened BucketController
  import opened AuthorizationController

  const Address := "http://influx:8086"
  const Inst1 := InstanceKey("ns", "inst1")
  const Inst2 := InstanceKey("ns", "inst2")
  const TokenRef := InstanceAuthorization(TokenAuth, Some("admin-token"), None)

  function ServerWith(orgs: map<string, Influx.Org>, buckets: map<string, Influx.Bucket>): Influx.Server
  {
    Influx.Server(orgs, buckets, [], 7, map[])
  }

  /** Organization `acme` targets `ns/inst1`; the remote has it as `0x1` with
      description "x" while the spec says "y": one lookup, one update, and the
      status `{ns: {inst1: {id: "0x1"}}}`. */
  lemma OrganizationDescriptionDrift()
    ensures var org := Organization(OrganizationSpec("acme", "y", map["ns" := map["inst1" := TokenRef]]), map[]);
      var remote := ServerWith(map["acme" := Influx.Org(Some("0x1"), "acme", Some("x"))], map[]);
      var r := ReconcileOrganization(org, Cluster(map[Inst1 := Address], map[], map[], None), [Inst1],
                                     map[Address := remote]);
      && r.error == None
      && r.status == map["ns" := map["inst1" := ResourceInstance(Some(InfluxID("0x1")))]]
      && r.calls == [OrgLookup("acme"), OrgUpdate(Influx.Org(Some("0x1"), "acme", Some("y")))]
  {
  }

  /** Bucket `metrics` with retention "720h" and no such bucket on the instance:
      one create carrying a single 2592000-second retention rule, in the
      Organization's id for that instance, and the new id recorded. */
  lemma BucketCreatedWithRetention(parseDuration: string -> Option<int>)
    requires parseDuration("720h") == Some(720 * 3600 * Second)
    ensures var refs := map["ns" := map["inst1" := TokenRef]];
      var org := Organization(OrganizationSpec("acme", "", refs),
                              map["ns" := map["inst1" := ResourceInstance(Some(InfluxID("0x1")))]]);
      var bucket := Bucket(BucketSpec("metrics", "acme", "", Implicit, "720h"), map[]);
      var r := ReconcileBucket(bucket, Cluster(map[Inst1 := Address], map["acme" := org], map[], None),
                               [Inst1], map[Address := ServerWith(map[], map[])], parseDuration);
      && r.error == None
      && r.calls == [BucketLookup("metrics"),
                     BucketCreate(Influx.Bucket(None, "metrics", Some("0x1"), Some(""),
                                                       [Influx.RetentionRule(2592000)]))]
      && r.status == map["ns" := map["inst1" := ResourceInstance(Some(InfluxID(Influx.Hex(7))))]]
  {
    var refs := map["ns" := map["inst1" := TokenRef]];
    assert IsRef(refs, Inst1);
    assert IsVisitOrder(refs, [Inst1]);
    Influx.BucketNotFoundMatches("metrics");
    var orgStatus := map["ns" := map["inst1" := ResourceInstance(Some(InfluxID("0x1")))]];
    var spec := BucketSpec("metrics", "acme", "", Implicit, "720h");
    assert WholeSeconds(720 * 3600 * Second) == 2592000;
    var request := DomainBucket(IdOf(orgStatus, Inst1), spec, parseDuration);
    assert request == Influx.Bucket(None, "metrics", Some("0x1"), Some(""), [Influx.RetentionRule(2592000)]);
    var t := Target(Instance(Inst1, Address), InfluxClient(Address, "admin-token"));
    var server := ServerWith(map[], map[]);
    assert Influx.FindBucketByName(server, "metrics") == Failure(Influx.BucketNotFound("metrics"));
    var synced := SyncBucket(spec, orgStatus, parseDuration, t, Fresh(map[Address := server]));
    assert synced.0.None?;
    assert synced.1.status == map["ns" := map["inst1" := ResourceInstance(Some(InfluxID(Influx.Hex(7))))]];
  }

  /** Two usable references, both served: the reconcile succeeds, yet only the
      first reference in the visit order gets a status entry, because the walk
      returns from inside its loop. */
  lemma OnlyFirstReferenceReconciled()
    ensures var refs := map["ns" := map["inst1" := TokenRef, "inst2" := TokenRef]];
      var org := Organization(OrganizationSpec("acme", "x", refs), map[]);
      var remote := ServerWith(map["acme" := Influx.Org(Some("0x1"), "acme", Some("x"))], map[]);
      var r := ReconcileOrganization(org, Cluster(map[Inst1 := Address, Inst2 := Address], map[], map[], None),
                                     [Inst1, Inst2], map[Address := remote]);
      && r.error == None
      && Find(r.status, Inst1) == Some(ResourceInstance(Some(InfluxID("0x1"))))
      && Find(r.status, Inst2) == None
  {
  }

  /** An Authorization with a read permission on a Bucket that has no id on the
      instance: no error, and the create carries the permission with a nil
      resource id. */
  lemma PermissionOnBucketWithoutId(render: (string, InstanceKey) -> Rendering)
    ensures var refs := map["ns" := map["inst1" := TokenRef]];
      var org := Organization(OrganizationSpec("acme", "", refs),
                              map["ns" := map["inst1" := ResourceInstance(Some(InfluxID("0x1")))]]);
      var pending := Bucket(BucketSpec("metrics", "acme", "", Implicit, ""), map[]);
      var auth := Authorization(
        AuthorizationSpec("acme", "reader", [Permission(Read, Resource("buckets", "metrics"))], Token(None)),
        map[]);
      var r := ReconcileAuthorization(
        auth, Cluster(map[Inst1 := Address], map["acme" := org], map["metrics" := pending], None),
        [Inst1], map[Address := ServerWith(map[], map[])], render);
      && r.error == None
      && r.calls == [AuthorizationCreate(Influx.AuthorizationRequest(
                       Some("reader"), Some("0x1"),
                       [Influx.Permission(Influx.ReadAction, "buckets", Some("0x1"), None)]))]
  {
    var refs := map["ns" := map["inst1" := TokenRef]];
    assert IsRef(refs, Inst1);
    assert IsVisitOrder(refs, [Inst1]);
    var pending := Bucket(BucketSpec("metrics", "acme", "", Implicit, ""), map[]);
    var perms := [Permission(Read, Resource("buckets", "metrics"))];
    var orgId := Some(InfluxID("0x1"));
    assert IdOf(pending.status, Inst1) == None;
    assert Buildable(perms[0], map["metrics" := pending]);
    assert perms[1..] == [];
    assert BuildPermissions([], orgId, map["metrics" := pending], Inst1) == Success([]);
    var expected := Influx.Permission(Influx.ReadAction, "buckets", Some("0x1"), None);
    assert PermissionFor(perms[0], orgId, pending, Inst1) == expected;
    assert [expected] + [] == [expected];
    assert BuildPermissions(perms, orgId, map["metrics" := pending], Inst1)
        == Success([Influx.Permission(Influx.ReadAction, "buckets", Some("0x1"), None)]);
  }

  /** Two usable references on one server and an Authorization without a token
      Secret, reconciled three times while the visit order alternates: each run
      finds no id for the reference it visits first (the previous run recorded
      the other one), so each succeeds by creating a new authorization. The
      status flips between the two references and the server ends up holding
      three authorizations. */
  lemma AlternatingOrderRecreatesAuthorization()
    ensures var refs := map["ns" := map["inst1" := TokenRef, "inst2" := TokenRef]];
      var org := Organization(OrganizationSpec("acme", "", refs),
                              map["ns" := map["inst1" := ResourceInstance(Some(InfluxID("0x1"))),
                                              "inst2" := ResourceInstance(Some(InfluxID("0x1")))]]);
      var cluster := Cluster(map[Inst1 := Address, Inst2 := Address], map["acme" := org], map[], None);
      var auth := Authorization(AuthorizationSpec("acme", "writer", [], Token(None)), map[]);
      var render := (n: string, k: InstanceKey) => Rendered(n);
      var r1 := ReconcileAuthorization(auth, cluster, [Inst1, Inst2], map[Address := ServerWith(map[], map[])], render);
      var r2 := ReconcileAuthorization(auth.(status := r1.status), cluster, [Inst2, Inst1], r1.world, render);
      var r3 := ReconcileAuthorization(auth.(status := r2.status), cluster, [Inst1, Inst2], r2.world, render);
      && r1.error == None && r2.error == None && r3.error == None
      && |r1.calls| == 1 && r1.calls[0].AuthorizationCreate?
      && |r2.calls| == 1 && r2.calls[0].AuthorizationCreate?
      && |r3.calls| == 1 && r3.calls[0].AuthorizationCreate?
      && r2.status != r1.status
      && Address in r3.world && |r3.world[Address].authorizations| == 3
  {
    var refs := map["ns" := map["inst1" := TokenRef, "inst2" := TokenRef]];
    assert IsRef(refs, Inst1) && IsRef(refs, Inst2);
    assert IsVisitOrder(refs, [Inst1, Inst2]);
    assert IsVisitOrder(refs, [Inst2, Inst1]);
  }
}

=== FILE: wrappers.dfy ===
/** Option and Result, the two failure-carrying shapes the model uses for Go's
    nil-able pointers and `(value, error)` returns. */
module Wrappers {

  /** A Go pointer: `None` is nil. */
  datatype Option<+T> = None | Some(value: T)

  /** A Go `(value, error)` pair where exactly one side is meaningful. */
  datatype Result<+T, +E> = Success(value: T) | Failure(error: E)
}
